=== FILE: README.md ===
# opt — a Dafny model of option resolution

`opt` is a small Go wrapper around Cobra and pflag. It lets a command-line tool
declare each option once and have its value come from one of three sources. A
command-line flag takes precedence over an environment variable, and the
environment variable over a static default. This project models the
callback-configured form of the library in `opt.go` and proves the properties
that form promises:

- **Option record.** `doVar` starts from a default record. The flag is named
  after the option, the environment variable is the upper-cased name, and every
  other field is empty, false or zero. It then applies the `OptFunc` edits
  (`FlagName`, `FlagShorthand`, `FlagIsPersistent`, `IsDirname`, `IsFilename`,
  `EnvName`, `Default`) from left to right. Each edit overwrites exactly one
  field (module `Record`).
- **Declaration.** A nil target panics before anything happens. A nil command
  panics only when the option has an enabled flag, before anything is
  registered. Otherwise the flag is registered on the local or the persistent flag set only when its name
  is non-empty. Directory and file completion marks follow it, and
  the resolution is scheduled last. The calls into Cobra and pflag are recorded
  as a list of events rather than performed. The declaration also carries the
  option's converter: the identity for `String`, `ParseBool` for `Bool`
  (module `Registration`).
- **Resolution.** A set flag wins. Next comes a present environment variable,
  converted by the option's converter. A failed conversion panics instead of
  falling back. That panic carries the converter's error alone, so it names
  neither the option nor its variable. Last comes the stored default. An empty flag name or
  environment name switches that source off (module `Resolution`).
- **Run once.** `sync.Once` becomes a cell with an `initialized` bit. The first
  call of `init` writes the target, and every later call leaves it alone
  (`Resolution.Init`).

The flag library's state after parsing (`changed` and the flag variable) and
the process environment (a map from names to text) are inputs. Converters are
functions from text to `Result`: the identity for string options, and Go's
`strconv.ParseBool` for boolean options, which accepts `1 t T true TRUE True`
and `0 f F false FALSE False`.

A newer standalone builder-chain design also exists, with its own registry and
`Parse()` driver. This model follows the callback-configured code instead. That
code differs from the builder design in three ways:

- the environment name defaults to the upper-cased option name;
- the value is resolved once and then frozen rather than looked up afresh;
- no edit sets the usage text, so every flag is registered with empty help
  (`Registration.RegisteredUsageIsEmpty`).

## Model

| member | source | states |
|---|---|---|
| Ascii.ToUpper | opt.go:119 | the derived environment name has the option name's length, holds no lower-case letter, and keeps every non-letter character |
| Ascii.ToUpperIdempotent | opt.go:119 | upper-casing an already derived environment name changes nothing |
| Ascii.ToUpperFixesUpperText | opt.go:119 | an option name with no lower-case letter is its own environment name |
| Ascii.ToUpperEmpty | opt.go:119 | the derived environment name is empty exactly when the option name is |
| StrConv.ParseString | opt.go:89 | the string converter never fails and returns the text unchanged |
| StrConv.ParseBool | opt.go:103 | the boolean converter yields true exactly for the six true spellings, false exactly for the six false spellings, and a syntax error naming the input otherwise |
| StrConv.ParseFormatBool | opt.go:103 | every boolean survives formatting and parsing |
| Record.Initial | opt.go:115-122 | before any edit, the name and the flag name are the option's name, the environment name is its upper-cased form, usage and shorthand are empty, the default is the zero value, and no switch is set; hence flag and environment are enabled exactly when the name is non-empty |
| Record.Apply | opt.go:160-223 | each option function writes its own field with its argument (true for the three switches) and leaves every other field as it was |
| Record.ApplyAll | opt.go:124-126 | folding any list of option functions over a record never changes the option's name or its usage text |
| Record.ApplyAllAppend | opt.go:124-126 | applying a list of edits is applying its prefix and then its suffix, so the fold runs strictly left to right |
| Record.UntouchedFieldKept | opt.go:124-126 | a field that no edit in the list targets keeps its starting content |
| Record.LastWriteWins | opt.go:124-126 | a field that some edit targets ends up with what the last such edit wrote, so later edits override earlier ones |
| Record.Configure | opt.go:115-126 | the record doVar configures keeps the option's name and an empty usage text whatever the edits |
| Record.ApplyIdempotent | opt.go:179-203 | applying any option function twice, including FlagIsPersistent, IsDirname and IsFilename, equals applying it once |
| Record.SameFieldOverrides | opt.go:160-223 | of two edits of the same field, the second alone determines the record |
| Record.DistinctFieldsCommute | opt.go:160-223 | edits of different fields can be applied in either order |
| Record.ConfigureFields | opt.go:115-126 | each field of the configured record is either the last edit's value or, when no edit targets it, the default doVar starts from |
| Registration.FlagEvents | opt.go:128-147 | a disabled flag makes no call; an enabled one is registered first and once, on the flag set its persistence picks, with the record's name, shorthand, default and usage, followed by one directory mark and then one file mark exactly when the switches are set, and nothing else |
| Registration.Declare | opt.go:110-150 | a nil target panics with nothing configured; a nil command panics exactly when the flag is enabled; otherwise the declaration carries the configured record and the converter, the calls are exactly those of FlagEvents followed by the scheduling of the resolution, which therefore happens once and last |
| Registration.RegisteredUsageIsEmpty | opt.go:91 | every registered flag carries an empty usage text |
| Registration.DisabledFlagRegistersNothing | opt.go:128-149 | an option whose flag name ends up empty needs no command and makes no flag-library call, only the scheduling of its resolution |
| Registration.DeclareString | opt.go:83-94 | a string option panics exactly for a nil target (NilTarget) or a nil command with an enabled flag (NilCommand), keeps its name and empty usage, defaults to "" unless a Default edit is given, carries the identity converter, and otherwise declares exactly what doVar declares: the configured record and its FlagEvents followed by the scheduling |
| Registration.BoolEditsLeaveMarks | opt.go:187-203 | the edits a boolean option can take never set the directory or file switch |
| Registration.DeclareBool | opt.go:97-108 | a boolean option panics exactly for a nil target (NilTarget) or a nil command with an enabled flag (NilCommand), defaults to false unless a Default edit is given, its flag is never marked as a directory or file, it carries ParseBool as its converter, and otherwise declares exactly what doVar declares: the configured record and its FlagEvents followed by the scheduling |
| Resolution.Resolve | opt.go:60-80 | an enabled, set flag gives the flag's value; otherwise an enabled, present environment variable gives its conversion or a panic carrying the converter's error; otherwise the stored default |
| Resolution.FlagOverridesEnvAndDefault | opt.go:62-65 | when the flag wins, the result is unchanged by any other environment, default or converter |
| Resolution.DisabledFlagIgnored | opt.go:62 | with an empty flag name, the flag library's state has no influence on the result |
| Resolution.UnsetFlagValueIgnored | opt.go:78 | when the flag was not set, the content of the flag variable has no influence; the fallback is the stored default |
| Resolution.OnlyOwnVariableRead | opt.go:67-68 | environments that agree on the option's variable give the same result, and with an empty environment name every environment does |
| Resolution.ConversionFailureIsFatal | opt.go:69-72 | a conversion failure of the winning environment text panics whatever default is configured |
| Resolution.FailureOnlyFromConversion | opt.go:60-80 | resolution fails only when the environment decides and its text does not convert, and the panic is the converter's error |
| Resolution.ValueComesFromASource | opt.go:60-80 | every resolved value is the set flag's value, the conversion of the winning environment text, or the default, according to which source decides |
| Resolution.StringEnvIsRaw | opt.go:89 | a string option never panics and a winning variable gives its raw text |
| Resolution.BoolSpellingsInterchangeable | opt.go:67-75 | two spellings ParseBool reads alike give a boolean option the same result when either stands in its variable |
| Resolution.ConversionPathIndependent | opt.go:67-78 | the same text gives the same value whether it comes through the environment or as the default |
| Resolution.Init | opt.go:60-61 | an initialized cell is returned unchanged; an uninitialized one becomes initialized and holds the resolved value, or the resolution's panic is raised |
| Resolution.InitAtMostOnce | opt.go:60-61 | after a successful init, another init with any flag state, environment or record changes nothing |
| Resolution.InitAll | opt.go:60-61 | an initialized cell comes out of any number of further init calls unchanged, and one or more calls without a panic leave the cell initialized |
| Resolution.FirstResolutionSticks | opt.go:60-79 | after any number of init calls, the target holds what the first call resolved |
| Resolution.FirstPanicStops | opt.go:69-72 | a first init whose resolution panics ends the sequence with that panic |
| Lifecycle.Materialize | opt.go:60-80 | a failed declaration passes its panic on; otherwise the value is the resolution of the declared record with the declared converter |
| Lifecycle.Run | opt.go:110-150 | a nil target panics whatever the inputs; a nil command panics when the flag is enabled; otherwise the value is the resolution of the record doVar configured |
| Lifecycle.RunString | opt.go:83-94 | a string option fails exactly for a nil target (NilTarget) or a nil command with an enabled flag (NilCommand), never from conversion; otherwise its value is the resolution of the configured record with the identity converter |
| Lifecycle.RunBool | opt.go:97-108 | a boolean option resolves with ParseBool, and its only conversion panic is ParseBool's syntax error on the text of the variable that decides |
| Lifecycle.PlainOptionReadsUpperCasedName | opt.go:115-122 | an option with no edits and an unset flag reads the variable named by its upper-cased name |
| Lifecycle.StringOptionTakesRawText | opt.go:83-94 | a declared string option with an unset flag and a present variable resolves to the variable's raw text |
| Lifecycle.EmptyEnvNameIgnoresEnv | opt.go:205-216 | when the last EnvName edit is "", the environment never influences the value |
| Lifecycle.EmptyFlagNameIgnoresFlag | opt.go:154-164 | when the last FlagName edit is "", no flag is registered, no command is needed and the flag state never influences the value |
| Lifecycle.BadBoolTextPanics | opt.go:69-72 | example: boolean option "verbose" with VERBOSE="yes" panics with ParseBool's syntax error, which does not name VERBOSE, even though a default is set |
| Lifecycle.RetriesExample | opt.go:67-78 | example: string option "retries" reading RETRIES with default "3" gives "3" when RETRIES is absent and "5" when RETRIES="5" |

## Left out

- A nil function in the list of option functions panics when `doVar` calls it. The model's edits are the seven constructors, so this case cannot arise.
- Cobra and pflag calls (`StringVarP`, `BoolVarP`, `Flags`, `PersistentFlags`, `Flag`, `MarkFlagDirname`, `MarkFlagFilename`, `OnInitialize`) are foreign library code. The model records them as `Registration.Event` values. The flag handle `cmd.Flag(name)` is replaced by the `FlagState` input.
- Argument parsing by pflag is not modelled. It sets the flag variable and the `Changed` bit, which enter resolution as the `FlagState` input. pflag's own panics are not modelled either. It panics on a duplicate flag name or on a shorthand longer than one character.
- The order in which Cobra runs the initializers of several options is foreign library behaviour. The model covers one option's `init`.
- `sync.Once` thread safety is not modelled; it becomes a sequential `initialized` bit. Go's `Once` also counts as done after its function panics. The model stops at the panic instead, as the program does.
- `os.LookupEnv` is replaced by a map parameter.
- Ascii.ToUpper: handles only ASCII letters, while Go's `strings.ToUpper` maps every Unicode letter with an upper-case form.
- StrConv.ParseBool: models the spellings Go's `strconv.ParseBool` accepts. Its code lies outside `opt.go`, and its error text is abstracted to the function name and the input.
- The command `cmd` and the target pointer `v` are reduced to whether they are nil: the `hasCommand` and `hasTarget` flags. The target's content becomes `Resolution.Cell`.
- The standalone builder chain, its process-wide registry and its `Parse()` driver are not in `opt.go` and are not part of this model.

=== FILE: ascii.dfy ===
/** Upper-casing of option names, restricted to ASCII letters. */
module Ascii {

  predicate IsLower(c: char) {
    'a' <= c <= 'z'
  }

  /** Maps an ASCII lower-case letter to its upper-case form and leaves every
      other character alone. */
  function UpperChar(c: char): (u: char)
    ensures !IsLower(u)
    ensures IsLower(c) ==> u != c && u as int + 32 == c as int
    ensures !IsLower(c) ==> u == c
  {
    if IsLower(c) then (c as int - 32) as char else c
  }

  /** True when the text holds no lower-case ASCII letter. */
  predicate IsUpperText(s: string) {
    forall i :: 0 <= i < |s| ==> !IsLower(s[i])
  }

  /** The environment variable name derived from an option name. */
  function ToUpper(s: string): (r: string)
    ensures |r| == |s|
    ensures IsUpperText(r)
    ensures forall i :: 0 <= i < |s| && !IsLower(s[i]) ==> r[i] == s[i]
    ensures forall i :: 0 <= i < |s| && IsLower(s[i]) ==> r[i] as int + 32 == s[i] as int
  {
    seq(|s|, i requires 0 <= i < |s| => UpperChar(s[i]))
  }

  /** Upper-casing twice is upper-casing once. */
  lemma ToUpperIdempotent(s: string)
    ensures ToUpper(ToUpper(s)) == ToUpper(s)
  {
  }

  /** Text that already has no lower-case letter is left as it is. */
  lemma ToUpperFixesUpperText(s: string)
    requires IsUpperText(s)
    ensures ToUpper(s) == s
  {
  }

  /** An option name is empty exactly when its derived environment name is. */
  lemma ToUpperEmpty(s: string)
    ensures ToUpper(s) == "" <==> s == ""
  {
  }
}

=== FILE: lifecycle.dfy ===
/** One option from declaration to its resolved value: `doVar` followed by
    the `init` Cobra schedules for it. */
module Lifecycle {
  import opened Wrappers
  import opened Ascii
  import opened StrConv
  import opened Panics
  import opened Record
  import opened Registration
  import opened Resolution

  /** Runs the scheduled `init` of a declaration once against the flag state
      and environment at that time, with the converter the declaration
      carries. `start` is what the target held before. */
  function Materialize<T>(d: Result<Declared<T>, Panic>, start: T,
                          flag: FlagState<T>, env: map<string, string>): (r: Result<T, Panic>)
    ensures d.Failure? ==> r == Failure(d.error)
    ensures d.Success? ==> r == Resolve(d.value.opt, flag, env, d.value.parse)
  {
    var decl :- d;
    var c :- Init(Cell(false, start), decl.opt, flag, env, decl.parse);
    Success(c.value)
  }

  /** Declares an option and resolves it once. */
  function Run<T>(hasTarget: bool, hasCommand: bool, name: string, zero: T, es: seq<OptFunc<T>>,
                  parse: string -> Result<T, SyntaxError>, start: T,
                  flag: FlagState<T>, env: map<string, string>): (r: Result<T, Panic>)
    ensures !hasTarget ==> r == Failure(NilTarget)
    ensures hasTarget && !hasCommand && Configure(name, zero, es).FlagEnabled() ==> r == Failure(NilCommand)
    ensures hasTarget && (hasCommand || !Configure(name, zero, es).FlagEnabled()) ==>
              r == Resolve(Configure(name, zero, es), flag, env, parse)
  {
    Materialize(Declare(hasTarget, hasCommand, name, zero, es, parse), start, flag, env)
  }

  /** Declares a string option (`String`) and resolves it once. Its only
      panics are the nil pointers: the identity converter never fails. */
  function RunString(hasTarget: bool, hasCommand: bool, name: string, es: seq<OptFunc<string>>, start: string,
                     flag: FlagState<string>, env: map<string, string>): (r: Result<string, Panic>)
    ensures r.Failure? <==> !hasTarget || (!hasCommand && Configure(name, "", es).FlagEnabled())
    ensures r.Failure? ==> r.error == (if hasTarget then NilCommand else NilTarget)
    ensures hasTarget && (hasCommand || !Configure(name, "", es).FlagEnabled()) ==>
              r == Resolve(Configure(name, "", es), flag, env, ParseString)
  {
    var d := DeclareString(hasTarget, hasCommand, name, es);
    assert d.Success? ==> Resolve(d.value.opt, flag, env, d.value.parse) == Resolve(d.value.opt, flag, env, ParseString);
    Materialize(d, start, flag, env)
  }

  /** Declares a boolean option (`Bool`) and resolves it once. Besides the
      nil pointers, its only panic is ParseBool's syntax error on the text of
      the variable that decides. */
  function RunBool(hasTarget: bool, hasCommand: bool, name: string, es: seq<OptFunc<bool>>, start: bool,
                   flag: FlagState<bool>, env: map<string, string>): (r: Result<bool, Panic>)
    requires forall i :: 0 <= i < |es| ==> BoolEdit(es[i])
    ensures !hasTarget ==> r == Failure(NilTarget)
    ensures hasTarget && !hasCommand && Configure(name, false, es).FlagEnabled() ==> r == Failure(NilCommand)
    ensures hasTarget && (hasCommand || !Configure(name, false, es).FlagEnabled()) ==>
              r == Resolve(Configure(name, false, es), flag, env, ParseBool)
    ensures r.Failure? && r.error.ConversionFailed? ==>
              var o := Configure(name, false, es);
              EnvWins(o, flag, env) && r.error == ConversionFailed(SyntaxError("ParseBool", env[o.envName]))
  {
    var d := DeclareBool(hasTarget, hasCommand, name, es);
    assert d.Success? ==> Resolve(d.value.opt, flag, env, d.value.parse) == Resolve(d.value.opt, flag, env, ParseBool);
    Materialize(d, start, flag, env)
  }

  /** An option declared with no edits and a non-empty name reads the
      variable named by its upper-cased name when its flag was not set. */
  lemma PlainOptionReadsUpperCasedName<T>(name: string, zero: T, parse: string -> Result<T, SyntaxError>,
                                          start: T, flag: FlagState<T>, env: map<string, string>)
    requires name != "" && !flag.changed
    requires ToUpper(name) in env
    requires parse(env[ToUpper(name)]).Success?
    ensures Run(true, true, name, zero, [], parse, start, flag, env) == Success(parse(env[ToUpper(name)]).value)
  {
  }

  /** A string option's value, when its flag was not set and its variable is
      present, is the variable's raw text. */
  lemma StringOptionTakesRawText(name: string, es: seq<OptFunc<string>>, start: string,
                                 flag: FlagState<string>, env: map<string, string>)
    requires !flag.changed
    requires Configure(name, "", es).EnvEnabled() && Configure(name, "", es).envName in env
    ensures RunString(true, true, name, es, start, flag, env) == Success(env[Configure(name, "", es).envName])
  {
  }

  /** When the last edit of the environment name sets it to "", the
      environment is never consulted. */
  lemma {:induction false} EmptyEnvNameIgnoresEnv<T>(hasCommand: bool, name: string, zero: T, es: seq<OptFunc<T>>, i: int,
                                                     parse: string -> Result<T, SyntaxError>, start: T,
                                                     flag: FlagState<T>, env1: map<string, string>, env2: map<string, string>)
    requires IsLastWrite(es, EnvNameField, i) && es[i] == EnvName("")
    ensures Run(true, hasCommand, name, zero, es, parse, start, flag, env1)
         == Run(true, hasCommand, name, zero, es, parse, start, flag, env2)
  {
    var o := Configure(name, zero, es);
    LastWriteWins(Initial(name, zero), es, EnvNameField, i);
    assert Get(o, EnvNameField) == Text("");
    OnlyOwnVariableRead(o, flag, env1, env2, parse);
  }

  /** When the last edit of the flag name sets it to "", no flag is
      registered, no command is needed and the flag library's state is never
      consulted. */
  lemma {:induction false} EmptyFlagNameIgnoresFlag<T>(hasCommand: bool, name: string, zero: T, es: seq<OptFunc<T>>, i: int,
                                                       parse: string -> Result<T, SyntaxError>, start: T,
                                                       flag1: FlagState<T>, flag2: FlagState<T>, env: map<string, string>)
    requires IsLastWrite(es, FlagNameField, i) && es[i] == FlagName("")
    ensures Declare(true, hasCommand, name, zero, es, parse).Success?
    ensures Declare(true, hasCommand, name, zero, es, parse).value.events == [ScheduleInit]
    ensures Run(true, hasCommand, name, zero, es, parse, start, flag1, env)
         == Run(true, hasCommand, name, zero, es, parse, start, flag2, env)
  {
    var o := Configure(name, zero, es);
    LastWriteWins(Initial(name, zero), es, FlagNameField, i);
    assert Get(o, FlagNameField) == Text("");
    DisabledFlagIgnored(o, flag1, flag2, env, parse);
  }

  /** Example: a boolean option "verbose" whose variable VERBOSE holds "yes"
      panics with ParseBool's error, even though a default is configured; the
      panic does not name the variable. */
  lemma BadBoolTextPanics(start: bool, env: map<string, string>)
    requires "VERBOSE" in env && env["VERBOSE"] == "yes"
    ensures RunBool(true, true, "verbose", [Default(true)], start, FlagState(false, true), env)
         == Failure(ConversionFailed(SyntaxError("ParseBool", "yes")))
  {
    assert ToUpper("verbose") == "VERBOSE";
    assert Configure("verbose", false, [Default(true)]).envName == "VERBOSE";
  }

  /** Example: a string option "retries" reading RETRIES with default "3"
      resolves to "3" when the variable is absent and to "5" when it holds
      "5". */
  lemma RetriesExample(start: string, flagValue: string)
    ensures RunString(true, true, "retries", [EnvName("RETRIES"), Default("3")], start,
                      FlagState(false, flagValue), map[]) == Success("3")
    ensures RunString(true, true, "retries", [EnvName("RETRIES"), Default("3")], start,
                      FlagState(false, flagValue), map["RETRIES" := "5"]) == Success("5")
  {
  }
}

=== FILE: panics.dfy ===
/** The panics a declaration or a resolution raises. */
module Panics {
  import opened StrConv

  /** Why a declaration or a resolution stops the program. A conversion
      failure carries the converter's error alone, as the program passes it
      to `panic`; nothing in it names the option or its variable. */
  datatype Panic =
    | NilTarget
    | NilCommand
    | ConversionFailed(err: SyntaxError)
}

=== FILE: record.dfy ===
/** The option record and the edits (Go's `OptFunc`s) that configure it. */
module Record {
  import opened Ascii

  /** One option's configuration. The Cobra command, the flag handle, the
      converter and the target pointer of the Go record are kept out of it:
      they are inputs of the operations that need them. */
  datatype Opt<T> = Opt(
    name: string,
    usage: string,
    envName: string,
    flagName: string,
    flagShorthand: string,
    flagIsPersistent: bool,
    flagIsDir: bool,
    flagIsFile: bool,
    defaultValue: T)
  {
    /** An empty flag name switches the command-line source off. */
    predicate FlagEnabled() {
      flagName != ""
    }

    /** An empty environment name switches the environment source off. */
    predicate EnvEnabled() {
      envName != ""
    }
  }

  /** One configuration edit; each constructor stands for the Go constructor
      of the same name. */
  datatype OptFunc<T> =
    | FlagName(flagName: string)
    | FlagShorthand(flagShorthand: string)
    | FlagIsPersistent
    | IsDirname
    | IsFilename
    | EnvName(envName: string)
    | Default(value: T)

  /** The fields of the record, used to say which field an edit writes. */
  datatype Field =
    | NameField | UsageField | EnvNameField | FlagNameField | ShorthandField
    | PersistentField | DirField | FileField | DefaultField

  /** The content of one field. */
  datatype FieldValue<T> = Text(text: string) | Switch(on: bool) | Value(v: T)

  /** Reads one field of the record. */
  function Get<T>(o: Opt<T>, f: Field): FieldValue<T> {
    match f
    case NameField => Text(o.name)
    case UsageField => Text(o.usage)
    case EnvNameField => Text(o.envName)
    case FlagNameField => Text(o.flagName)
    case ShorthandField => Text(o.flagShorthand)
    case PersistentField => Switch(o.flagIsPersistent)
    case DirField => Switch(o.flagIsDir)
    case FileField => Switch(o.flagIsFile)
    case DefaultField => Value(o.defaultValue)
  }

  /** The field an edit writes. */
  function Target<T>(e: OptFunc<T>): Field {
    match e
    case FlagName(_) => FlagNameField
    case FlagShorthand(_) => ShorthandField
    case FlagIsPersistent => PersistentField
    case IsDirname => DirField
    case IsFilename => FileField
    case EnvName(_) => EnvNameField
    case Default(_) => DefaultField
  }

  /** The content an edit writes into its field. */
  function Written<T>(e: OptFunc<T>): FieldValue<T> {
    match e
    case FlagName(n) => Text(n)
    case FlagShorthand(s) => Text(s)
    case FlagIsPersistent => Switch(true)
    case IsDirname => Switch(true)
    case IsFilename => Switch(true)
    case EnvName(n) => Text(n)
    case Default(v) => Value(v)
  }

  /** The record before any edit: the flag is named after the option, the
      environment variable is the upper-cased name, everything else is empty,
      false or the type's zero value. */
  function Initial<T>(name: string, zero: T): (o: Opt<T>)
    ensures o.FlagEnabled() <==> name != ""
    ensures o.EnvEnabled() <==> name != ""
    ensures |o.envName| == |name| && IsUpperText(o.envName)
    ensures !o.flagIsPersistent && !o.flagIsDir && !o.flagIsFile
    ensures o.name == name && o.flagName == name && o.envName == ToUpper(name)
    ensures o.usage == "" && o.flagShorthand == "" && o.defaultValue == zero
  {
    Opt(name, "", ToUpper(name), name, "", false, false, false, zero)
  }

  /** Applies one edit. It writes its own field and nothing else. */
  function Apply<T>(o: Opt<T>, e: OptFunc<T>): (r: Opt<T>)
    ensures Get(r, Target(e)) == Written(e)
    ensures forall f :: f != Target(e) ==> Get(r, f) == Get(o, f)
  {
    match e
    case FlagName(n) => o.(flagName := n)
    case FlagShorthand(s) => o.(flagShorthand := s)
    case FlagIsPersistent => o.(flagIsPersistent := true)
    case IsDirname => o.(flagIsDir := true)
    case IsFilename => o.(flagIsFile := true)
    case EnvName(n) => o.(envName := n)
    case Default(v) => o.(defaultValue := v)
  }

  /** Applies the edits in order, first to last. No edit reaches the
      option's name or its usage text. */
  function ApplyAll<T>(o: Opt<T>, es: seq<OptFunc<T>>): (r: Opt<T>)
    ensures r.name == o.name && r.usage == o.usage
    decreases |es|
  {
    if |es| == 0 then o else ApplyAll(Apply(o, es[0]), es[1..])
  }

  /** The record `doVar` builds from an option name and its edits: it keeps
      the option's name and an empty usage text whatever the edits. */
  function Configure<T>(name: string, zero: T, es: seq<OptFunc<T>>): (r: Opt<T>)
    ensures r.name == name && r.usage == ""
  {
    ApplyAll(Initial(name, zero), es)
  }

  /** No edit in the list writes field `f`. */
  ghost predicate Untouched<T>(es: seq<OptFunc<T>>, f: Field) {
    forall i :: 0 <= i < |es| ==> Target(es[i]) != f
  }

  /** Edit `i` is the last one in the list that writes field `f`. */
  ghost predicate IsLastWrite<T>(es: seq<OptFunc<T>>, f: Field, i: int) {
    && 0 <= i < |es|
    && Target(es[i]) == f
    && forall j :: i < j < |es| ==> Target(es[j]) != f
  }

  /** Applying a concatenation applies its parts one after the other. */
  lemma {:induction false} ApplyAllAppend<T>(o: Opt<T>, es: seq<OptFunc<T>>, fs: seq<OptFunc<T>>)
    ensures ApplyAll(o, es + fs) == ApplyAll(ApplyAll(o, es), fs)
    decreases |es|
  {
    if |es| == 0 {
      assert es + fs == fs;
    } else {
      assert (es + fs)[0] == es[0];
      assert (es + fs)[1..] == es[1..] + fs;
      ApplyAllAppend(Apply(o, es[0]), es[1..], fs);
    }
  }

  /** A field no edit writes keeps its initial content. */
  lemma {:induction false} UntouchedFieldKept<T>(o: Opt<T>, es: seq<OptFunc<T>>, f: Field)
    requires Untouched(es, f)
    ensures Get(ApplyAll(o, es), f) == Get(o, f)
    decreases |es|
  {
    if |es| > 0 {
      assert Target(es[0]) != f;
      assert Untouched(es[1..], f) by {
        forall i | 0 <= i < |es[1..]|
          ensures Target(es[1..][i]) != f
        {
          assert es[1..][i] == es[i + 1];
        }
      }
      UntouchedFieldKept(Apply(o, es[0]), es[1..], f);
    }
  }

  /** A field some edit writes ends up with what the last such edit wrote:
      later edits override earlier ones. */
  lemma {:induction false} LastWriteWins<T>(o: Opt<T>, es: seq<OptFunc<T>>, f: Field, i: int)
    requires IsLastWrite(es, f, i)
    ensures Get(ApplyAll(o, es), f) == Written(es[i])
    decreases |es|
  {
    var o' := Apply(o, es[0]);
    if i == 0 {
      assert Untouched(es[1..], f) by {
        forall k | 0 <= k < |es[1..]|
          ensures Target(es[1..][k]) != f
        {
          assert es[1..][k] == es[k + 1];
        }
      }
      UntouchedFieldKept(o', es[1..], f);
    } else {
      assert IsLastWrite(es[1..], f, i - 1) by {
        forall k | i - 1 < k < |es[1..]|
          ensures Target(es[1..][k]) != f
        {
          assert es[1..][k] == es[k + 1];
        }
      }
      LastWriteWins(o', es[1..], f, i - 1);
    }
  }

  /** Every edit is idempotent: applying it twice is applying it once. */
  lemma ApplyIdempotent<T>(o: Opt<T>, e: OptFunc<T>)
    ensures Apply(Apply(o, e), e) == Apply(o, e)
  {
  }

  /** Of two edits of the same field, the second one decides. */
  lemma SameFieldOverrides<T>(o: Opt<T>, e1: OptFunc<T>, e2: OptFunc<T>)
    requires Target(e1) == Target(e2)
    ensures Apply(Apply(o, e1), e2) == Apply(o, e2)
  {
  }

  /** Edits of different fields can be applied in either order. */
  lemma DistinctFieldsCommute<T>(o: Opt<T>, e1: OptFunc<T>, e2: OptFunc<T>)
    requires Target(e1) != Target(e2)
    ensures Apply(Apply(o, e1), e2) == Apply(Apply(o, e2), e1)
  {
  }

  /** The configured record, field by field: the last edit of a field decides
      its content, and a field no edit writes keeps the default `doVar`
      starts from. */
  lemma ConfigureFields<T>(name: string, zero: T, es: seq<OptFunc<T>>, f: Field)
    ensures Untouched(es, f) ==> Get(Configure(name, zero, es), f) == Get(Initial(name, zero), f)
    ensures forall i :: IsLastWrite(es, f, i) ==> Get(Configure(name, zero, es), f) == Written(es[i])
  {
    if Untouched(es, f) {
      UntouchedFieldKept(Initial(name, zero), es, f);
    }
    forall i | IsLastWrite(es, f, i)
      ensures Get(Configure(name, zero, es), f) == Written(es[i])
    {
      LastWriteWins(Initial(name, zero), es, f, i);
    }
  }
}

=== FILE: registration.dfy ===
/** Declaring an option on a command (`doVar`, `String`, `Bool`): building
    the record and the flag-library calls it makes. */
module Registration {
  import opened Wrappers
  import opened StrConv
  import opened Panics
  import opened Record

  /** The command's flag set a flag is added to. */
  datatype FlagSet = LocalFlags | PersistentFlags

  /** A call the declaration makes into the flag and command libraries,
      recorded instead of performed. */
  datatype Event<T> =
    | RegisterFlag(flagSet: FlagSet, name: string, shorthand: string, defaultValue: T, usage: string)
    | MarkDirname(flagSet: FlagSet, name: string)
    | MarkFilename(flagSet: FlagSet, name: string)
    | ScheduleInit

  /** A declared option: its record, the converter its resolution applies to
      environment text, and the calls made while declaring it. */
  datatype Declared<T> = Declared(opt: Opt<T>, parse: string -> Result<T, SyntaxError>, events: seq<Event<T>>)

  /** The flag set a record's flag belongs in. */
  function SetOf<T>(o: Opt<T>): FlagSet {
    if o.flagIsPersistent then PersistentFlags else LocalFlags
  }

  ghost predicate Registers<T>(events: seq<Event<T>>) {
    exists i :: 0 <= i < |events| && events[i].RegisterFlag?
  }

  ghost predicate MarksDir<T>(events: seq<Event<T>>) {
    exists i :: 0 <= i < |events| && events[i].MarkDirname?
  }

  ghost predicate MarksFile<T>(events: seq<Event<T>>) {
    exists i :: 0 <= i < |events| && events[i].MarkFilename?
  }

  /** Every directory mark comes before every file mark. */
  ghost predicate DirBeforeFile<T>(events: seq<Event<T>>) {
    forall i, j :: 0 <= i < |events| && 0 <= j < |events| && events[i].MarkDirname? && events[j].MarkFilename? ==> i < j
  }

  /** The flag-library calls for a configured record: nothing when its flag
      is disabled; otherwise the registration on the flag set its
      persistence picks, then a directory mark and then a file mark as its
      switches ask for, all under the flag's name. */
  function FlagEvents<T>(o: Opt<T>): (evs: seq<Event<T>>)
    ensures |evs| == 0 <==> !o.FlagEnabled()
    ensures o.FlagEnabled() ==> |evs| == 1 + (if o.flagIsDir then 1 else 0) + (if o.flagIsFile then 1 else 0)
    ensures o.FlagEnabled() ==> evs[0] == RegisterFlag(SetOf(o), o.flagName, o.flagShorthand, o.defaultValue, o.usage)
    ensures forall i :: 0 < i < |evs| ==> !evs[i].RegisterFlag?
    ensures forall i :: 0 <= i < |evs| ==> !evs[i].ScheduleInit?
    ensures MarksDir(evs) <==> o.FlagEnabled() && o.flagIsDir
    ensures MarksFile(evs) <==> o.FlagEnabled() && o.flagIsFile
    ensures forall i :: 0 <= i < |evs| && evs[i].MarkDirname? ==> evs[i] == MarkDirname(SetOf(o), o.flagName)
    ensures forall i :: 0 <= i < |evs| && evs[i].MarkFilename? ==> evs[i] == MarkFilename(SetOf(o), o.flagName)
    ensures DirBeforeFile(evs)
  {
    if !o.FlagEnabled() then []
    else
      var fs := SetOf(o);
      var evs := [RegisterFlag(fs, o.flagName, o.flagShorthand, o.defaultValue, o.usage)]
        + (if o.flagIsDir then [MarkDirname(fs, o.flagName)] else [])
        + (if o.flagIsFile then [MarkFilename(fs, o.flagName)] else []);
      assert o.flagIsDir ==> evs[1].MarkDirname?;
      assert o.flagIsFile ==> evs[|evs| - 1].MarkFilename?;
      evs
  }

  /** Declares an option with the given converter. `hasTarget` is false when
      the Go target pointer is nil, which panics before anything is
      configured or registered; `hasCommand` is false when the command
      pointer is nil, which panics as soon as an enabled flag needs the
      command's flag set and before anything is registered. */
  function Declare<T>(hasTarget: bool, hasCommand: bool, name: string, zero: T, es: seq<OptFunc<T>>,
                      parse: string -> Result<T, SyntaxError>): (r: Result<Declared<T>, Panic>)
    ensures r.Failure? <==> !hasTarget || (!hasCommand && Configure(name, zero, es).FlagEnabled())
    ensures r.Failure? ==> r.error == (if hasTarget then NilCommand else NilTarget)
    ensures r.Success? ==> r.value.opt == Configure(name, zero, es) && r.value.parse == parse
    ensures r.Success? ==> r.value.events == FlagEvents(r.value.opt) + [ScheduleInit]
    ensures r.Success? ==>
      var evs := r.value.events;
      && |evs| > 0
      && evs[|evs| - 1] == ScheduleInit
      && (forall i :: 0 <= i < |evs| - 1 ==> !evs[i].ScheduleInit?)
  {
    if !hasTarget then Failure(NilTarget)
    else
      var o := Configure(name, zero, es);
      if o.FlagEnabled() && !hasCommand then Failure(NilCommand)
      else
        var flagEvs := FlagEvents(o);
        var evs := flagEvs + [ScheduleInit];
        assert forall i :: 0 <= i < |flagEvs| ==> evs[i] == flagEvs[i];
        assert o.FlagEnabled() ==> evs[0] == flagEvs[0];
        Success(Declared(o, parse, evs))
  }

  /** No edit writes the usage text, so every flag is registered with an
      empty usage string. */
  lemma RegisteredUsageIsEmpty<T>(hasTarget: bool, hasCommand: bool, name: string, zero: T, es: seq<OptFunc<T>>,
                                  parse: string -> Result<T, SyntaxError>)
    requires Declare(hasTarget, hasCommand, name, zero, es, parse).Success?
    requires Configure(name, zero, es).FlagEnabled()
    ensures Declare(hasTarget, hasCommand, name, zero, es, parse).value.events[0].RegisterFlag?
    ensures Declare(hasTarget, hasCommand, name, zero, es, parse).value.events[0].usage == ""
  {
  }

  /** An option whose flag name ends up empty needs no command and makes no
      flag-library call: its only call schedules the resolution. */
  lemma DisabledFlagRegistersNothing<T>(hasCommand: bool, name: string, zero: T, es: seq<OptFunc<T>>,
                                        parse: string -> Result<T, SyntaxError>)
    requires Configure(name, zero, es).flagName == ""
    ensures Declare(true, hasCommand, name, zero, es, parse).Success?
    ensures Declare(true, hasCommand, name, zero, es, parse).value.events == [ScheduleInit]
  {
  }

  /** Declares a string option: zero value "" and the identity converter. */
  function DeclareString(hasTarget: bool, hasCommand: bool, name: string, es: seq<OptFunc<string>>): (r: Result<Declared<string>, Panic>)
    ensures r.Failure? <==> !hasTarget || (!hasCommand && Configure(name, "", es).FlagEnabled())
    ensures r.Failure? ==> r.error == (if hasTarget then NilCommand else NilTarget)
    ensures r.Success? ==> r.value.opt.name == name && r.value.opt.usage == ""
    ensures r.Success? && Untouched(es, DefaultField) ==> r.value.opt.defaultValue == ""
    ensures r.Success? ==> forall s :: r.value.parse(s) == Success(s)
    ensures r.Success? ==> r.value.opt == Configure(name, "", es)
    ensures r.Success? ==> r.value.events == FlagEvents(r.value.opt) + [ScheduleInit]
  {
    ConfigureFields(name, "", es, DefaultField);
    Declare(hasTarget, hasCommand, name, "", es, ParseString)
  }

  /** The directory and file marks exist only for string options in Go's
      types; a boolean option's edits are the remaining ones. */
  predicate BoolEdit(e: OptFunc<bool>) {
    !e.IsDirname? && !e.IsFilename?
  }

  /** Edits allowed on a boolean option write neither completion switch. */
  lemma BoolEditsLeaveMarks(es: seq<OptFunc<bool>>)
    requires forall i :: 0 <= i < |es| ==> BoolEdit(es[i])
    ensures Untouched(es, DirField) && Untouched(es, FileField)
  {
  }

  /** Declares a boolean option: zero value false and Go's ParseBool. Its flag
      is never marked as a directory or a file. */
  function DeclareBool(hasTarget: bool, hasCommand: bool, name: string, es: seq<OptFunc<bool>>): (r: Result<Declared<bool>, Panic>)
    requires forall i :: 0 <= i < |es| ==> BoolEdit(es[i])
    ensures r.Failure? <==> !hasTarget || (!hasCommand && Configure(name, false, es).FlagEnabled())
    ensures r.Failure? ==> r.error == (if hasTarget then NilCommand else NilTarget)
    ensures r.Success? ==> !r.value.opt.flagIsDir && !r.value.opt.flagIsFile
    ensures r.Success? ==> !MarksDir(r.value.events) && !MarksFile(r.value.events)
    ensures r.Success? ==> forall s :: r.value.parse(s) == ParseBool(s)
    ensures r.Success? ==> r.value.opt == Configure(name, false, es)
    ensures r.Success? ==> r.value.events == FlagEvents(r.value.opt) + [ScheduleInit]
    ensures r.Success? && Untouched(es, DefaultField) ==> !r.value.opt.defaultValue
  {
    BoolEditsLeaveMarks(es);
    ConfigureFields(name, false, es, DefaultField);
    UntouchedFieldKept(Initial(name, false), es, DirField);
    UntouchedFieldKept(Initial(name, false), es, FileField);
    Declare(hasTarget, hasCommand, name, false, es, ParseBool)
  }
}

=== FILE: resolution.dfy ===
/** Resolving an option's value (`opt.init`): flag over environment over
    default, guarded so that it writes the target at most once. */
module Resolution {
  import opened Wrappers
  import opened StrConv
  import opened Panics
  import opened Record

  /** The flag library's view of an option's flag after argument parsing:
      whether the command line set it, and the flag variable's content. */
  datatype FlagState<T> = FlagState(changed: bool, value: T)

  /** The command line decides: the flag is enabled and was set. */
  predicate FlagWins<T>(o: Opt<T>, flag: FlagState<T>) {
    o.FlagEnabled() && flag.changed
  }

  /** The environment decides: the flag does not, the environment source is
      enabled and the variable is present. */
  predicate EnvWins<T>(o: Opt<T>, flag: FlagState<T>, env: map<string, string>) {
    !FlagWins(o, flag) && o.EnvEnabled() && o.envName in env
  }

  /** The value an option resolves to, or the panic of a failed conversion,
      which carries the converter's error and nothing else.
      The environment is a map from variable names to their text; `parse` is
      the option's converter. */
  function Resolve<T>(o: Opt<T>, flag: FlagState<T>, env: map<string, string>,
                      parse: string -> Result<T, SyntaxError>): (r: Result<T, Panic>)
    ensures FlagWins(o, flag) ==> r == Success(flag.value)
    ensures EnvWins(o, flag, env) && parse(env[o.envName]).Success? ==> r == Success(parse(env[o.envName]).value)
    ensures EnvWins(o, flag, env) && parse(env[o.envName]).Failure? ==>
              r == Failure(ConversionFailed(parse(env[o.envName]).error))
    ensures !FlagWins(o, flag) && !EnvWins(o, flag, env) ==> r == Success(o.defaultValue)
  {
    if o.flagName != "" && flag.changed then Success(flag.value)
    else if o.envName != "" && o.envName in env then
      match parse(env[o.envName])
      case Success(v) => Success(v)
      case Failure(e) => Failure(ConversionFailed(e))
    else Success(o.defaultValue)
  }

  /** A set flag decides whatever the environment, the default and the
      converter hold. */
  lemma FlagOverridesEnvAndDefault<T>(o: Opt<T>, flag: FlagState<T>, env1: map<string, string>, env2: map<string, string>,
                                      d: T, parse1: string -> Result<T, SyntaxError>, parse2: string -> Result<T, SyntaxError>)
    requires FlagWins(o, flag)
    ensures Resolve(o, flag, env1, parse1) == Resolve(o.(defaultValue := d), flag, env2, parse2)
  {
  }

  /** With the flag disabled, the flag library's state is never consulted. */
  lemma DisabledFlagIgnored<T>(o: Opt<T>, flag1: FlagState<T>, flag2: FlagState<T>, env: map<string, string>,
                               parse: string -> Result<T, SyntaxError>)
    requires !o.FlagEnabled()
    ensures Resolve(o, flag1, env, parse) == Resolve(o, flag2, env, parse)
  {
  }

  /** A flag that was not set does not contribute its variable: the fallback
      is the stored default, not the flag variable. */
  lemma UnsetFlagValueIgnored<T>(o: Opt<T>, v1: T, v2: T, env: map<string, string>,
                                 parse: string -> Result<T, SyntaxError>)
    ensures Resolve(o, FlagState(false, v1), env, parse) == Resolve(o, FlagState(false, v2), env, parse)
  {
  }

  /** Only the option's own variable is read: two environments that agree on
      it give the same result, and with the environment source disabled any
      two environments do. */
  lemma OnlyOwnVariableRead<T>(o: Opt<T>, flag: FlagState<T>, env1: map<string, string>, env2: map<string, string>,
                               parse: string -> Result<T, SyntaxError>)
    requires !o.EnvEnabled() || (o.envName in env1 <==> o.envName in env2)
    requires o.EnvEnabled() && o.envName in env1 ==> env1[o.envName] == env2[o.envName]
    ensures Resolve(o, flag, env1, parse) == Resolve(o, flag, env2, parse)
  {
  }

  /** A conversion failure panics: it never falls back to the default. */
  lemma ConversionFailureIsFatal<T>(o: Opt<T>, flag: FlagState<T>, env: map<string, string>, d: T,
                                    parse: string -> Result<T, SyntaxError>)
    requires EnvWins(o, flag, env) && parse(env[o.envName]).Failure?
    ensures Resolve(o.(defaultValue := d), flag, env, parse).Failure?
  {
  }

  /** The only way resolution fails is a conversion of the environment text. */
  lemma FailureOnlyFromConversion<T>(o: Opt<T>, flag: FlagState<T>, env: map<string, string>,
                                     parse: string -> Result<T, SyntaxError>)
    requires Resolve(o, flag, env, parse).Failure?
    ensures EnvWins(o, flag, env)
    ensures Resolve(o, flag, env, parse).error == ConversionFailed(parse(env[o.envName]).error)
  {
  }

  /** A resolved value always comes from one of the three sources. */
  lemma ValueComesFromASource<T>(o: Opt<T>, flag: FlagState<T>, env: map<string, string>,
                                 parse: string -> Result<T, SyntaxError>)
    requires Resolve(o, flag, env, parse).Success?
    ensures var v := Resolve(o, flag, env, parse).value;
      || (FlagWins(o, flag) && v == flag.value)
      || (EnvWins(o, flag, env) && parse(env[o.envName]) == Success(v))
      || (!FlagWins(o, flag) && !EnvWins(o, flag, env) && v == o.defaultValue)
  {
  }

  /** String options never panic, and a present variable resolves to its raw
      text. */
  lemma StringEnvIsRaw(o: Opt<string>, flag: FlagState<string>, env: map<string, string>)
    ensures Resolve(o, flag, env, ParseString).Success?
    ensures EnvWins(o, flag, env) ==> Resolve(o, flag, env, ParseString).value == env[o.envName]
  {
  }

  /** The same text gives the same value whether it arrives as the default's
      converted form or through the environment. */
  lemma ConversionPathIndependent<T>(o: Opt<T>, flag: FlagState<T>, env: map<string, string>, text: string,
                                     parse: string -> Result<T, SyntaxError>)
    requires !FlagWins(o, flag) && o.EnvEnabled()
    requires parse(text).Success?
    ensures Resolve(o, flag, env[o.envName := text], parse)
         == Resolve(o.(defaultValue := parse(text).value), flag, env - {o.envName}, parse)
  {
  }

  /** Two spellings ParseBool reads alike ("t" and "TRUE", say) are
      interchangeable in the environment: a boolean option resolves to the
      same value with either. */
  lemma BoolSpellingsInterchangeable(o: Opt<bool>, flag: FlagState<bool>, env: map<string, string>,
                                     s1: string, s2: string)
    requires ParseBool(s1) == ParseBool(s2)
    ensures Resolve(o, flag, env[o.envName := s1], ParseBool) == Resolve(o, flag, env[o.envName := s2], ParseBool)
  {
  }

  /** The write-once target of an option: `initialized` is the state of the
      Go `sync.Once`, `value` what the target pointer holds. */
  datatype Cell<T> = Cell(initialized: bool, value: T)

  /** One call of `init`: the first call resolves and writes the target,
      every later call leaves it as it is. */
  function Init<T>(c: Cell<T>, o: Opt<T>, flag: FlagState<T>, env: map<string, string>,
                   parse: string -> Result<T, SyntaxError>): (r: Result<Cell<T>, Panic>)
    ensures c.initialized ==> r == Success(c)
    ensures r.Success? ==> r.value.initialized
    ensures !c.initialized && r.Success? ==> Resolve(o, flag, env, parse) == Success(r.value.value)
    ensures !c.initialized && r.Failure? ==> Resolve(o, flag, env, parse) == Failure(r.error)
  {
    if c.initialized then Success(c)
    else
      var v :- Resolve(o, flag, env, parse);
      Success(Cell(true, v))
  }

  /** After a successful call, another call with any other flag state,
      environment or even record changes nothing. */
  lemma InitAtMostOnce<T>(c: Cell<T>, o: Opt<T>, flag: FlagState<T>, env: map<string, string>,
                          o': Opt<T>, flag': FlagState<T>, env': map<string, string>,
                          parse: string -> Result<T, SyntaxError>)
    requires Init(c, o, flag, env, parse).Success?
    ensures var c' := Init(c, o, flag, env, parse).value;
      Init(c', o', flag', env', parse) == Success(c')
  {
  }

  /** The inputs of one `init` call. */
  datatype Inputs<T> = Inputs(flag: FlagState<T>, env: map<string, string>)

  /** A sequence of `init` calls, stopping at the first panic. An
      initialized cell comes out of any number of calls unchanged, and after
      at least one call without a panic the cell is initialized. */
  function InitAll<T>(c: Cell<T>, o: Opt<T>, calls: seq<Inputs<T>>,
                      parse: string -> Result<T, SyntaxError>): (r: Result<Cell<T>, Panic>)
    ensures c.initialized ==> r == Success(c)
    ensures r.Success? && |calls| > 0 ==> r.value.initialized
    decreases |calls|
  {
    if |calls| == 0 then Success(c)
    else
      var c' :- Init(c, o, calls[0].flag, calls[0].env, parse);
      InitAll(c', o, calls[1..], parse)
  }

  /** However many times `init` runs, the target ends up holding what the
      first call resolved. */
  lemma FirstResolutionSticks<T>(c: Cell<T>, o: Opt<T>, calls: seq<Inputs<T>>,
                                 parse: string -> Result<T, SyntaxError>)
    requires |calls| > 0 && !c.initialized
    requires Resolve(o, calls[0].flag, calls[0].env, parse).Success?
    ensures InitAll(c, o, calls, parse)
         == Success(Cell(true, Resolve(o, calls[0].flag, calls[0].env, parse).value))
  {
  }

  /** A first call that panics ends the sequence with that panic. */
  lemma FirstPanicStops<T>(c: Cell<T>, o: Opt<T>, calls: seq<Inputs<T>>,
                           parse: string -> Result<T, SyntaxError>)
    requires |calls| > 0 && !c.initialized
    requires Resolve(o, calls[0].flag, calls[0].env, parse).Failure?
    ensures InitAll(c, o, calls, parse) == Failure(Resolve(o, calls[0].flag, calls[0].env, parse).error)
  {
  }
}

=== FILE: strconv.dfy ===
/** The two string converters an option can use when it reads its
    environment variable. */
module StrConv {
  import opened Wrappers

  /** The error a converter reports; it names the function and the input. */
  datatype SyntaxError = SyntaxError(func: string, input: string)

  /** The converter of a string option: the text itself, never an error. */
  function ParseString(s: string): (r: Result<string, SyntaxError>)
    ensures r.Success? && r.value == s
  {
    Success(s)
  }

  predicate IsTrueSpelling(s: string) {
    s == "1" || s == "t" || s == "T" || s == "true" || s == "TRUE" || s == "True"
  }

  predicate IsFalseSpelling(s: string) {
    s == "0" || s == "f" || s == "F" || s == "false" || s == "FALSE" || s == "False"
  }

  /** The converter of a boolean option, accepting the same spellings as Go's
      strconv.ParseBool. */
  function ParseBool(s: string): (r: Result<bool, SyntaxError>)
    ensures r == Success(true) <==> IsTrueSpelling(s)
    ensures r == Success(false) <==> IsFalseSpelling(s)
    ensures r.Failure? <==> !IsTrueSpelling(s) && !IsFalseSpelling(s)
    ensures r.Failure? ==> r.error == SyntaxError("ParseBool", s)
  {
    if IsTrueSpelling(s) then Success(true)
    else if IsFalseSpelling(s) then Success(false)
    else Failure(SyntaxError("ParseBool", s))
  }

  /** The canonical text of a boolean, as Go's strconv.FormatBool writes it. */
  function FormatBool(b: bool): (s: string)
    ensures |s| > 0
  {
    if b then "true" else "false"
  }

  /** Formatting and then parsing a boolean gives it back. */
  lemma ParseFormatBool(b: bool)
    ensures ParseBool(FormatBool(b)) == Success(b)
  {
  }
}

=== FILE: wrappers.dfy ===
/** Success/failure values used in place of Go's `(value, error)` pairs and panics. */
module Wrappers {

  /** Either a computed value or the error that stopped the computation. */
  datatype Result<+R, +E> = Success(value: R) | Failure(error: E) {
    predicate IsFailure() {
      Failure?
    }

    function PropagateFailure<U>(): Result<U, E>
      requires Failure?
    {
      Failure(error)
    }

    function Extract(): R
      requires Success?
    {
      value
    }
  }
}
